=== FILE: README.md ===
# Video recorder mini-app: a Dafny model of its core

This project models the logic core of a small browser video recorder and its
storage backend:

- the **recording-session reducer** of the frontend's recording context: a pure
  `reducer(state, action)` over the phases READY, COUNTDOWN, RECORDING, REVIEW and
  UPLOADING, with a countdown, an elapsed-seconds timer and an optional blob
  (`recording_context.dfy`, module `RecordingContext`);
- the **Recorder component**, a separate three-phase machine (IDLE, RECORDING,
  PREVIEW) over the recorded chunks and the typed file name, including what `save`
  sends and emits (`recorder.dfy`, module `Recorder`);
- the **owner-scoped video store** of the backend: the `recordings` table and the
  S3 bucket as maps, with list, upload, rename and delete (`crud.dfy`, module
  `Crud`, for the data layer; `api.dfy`, module `Api`, for the HTTP handlers);
- the **Authorization header parsing** of the backend (`auth.dfy`, module `Auth`),
  with Python's `str.split()`, `str.lower()` and JavaScript's `trim()` in
  `text.dfy` (module `Text`);
- shared value types (`Option`, bytes, blob concatenation) in `common.dfy`
  (module `Common`), and lemmas linking the frontend's request to the backend in
  `pipeline.dfy` (module `Pipeline`).

Everything is immutable datatypes and pure functions; the two loops (building a blob
from its parts, and dispatching a queue of actions) carry their invariants.

Abstractions, in the system's own terms:

- The blob is its bytes (`seq<bv8>`); `new Blob(chunks)` is their concatenation.
- The camera stream is a flag given to `startRecording`. Firebase's
  `currentUser`/`getIdToken` become a `Session` value whose token may be missing
  (the token fetch failed). Whether `fetch` resolved is a boolean: `save` never
  reads the status of an answer it receives, but whether the browser hands it the
  answer at all depends on the answer. The backend's CORS setting (any origin)
  applies to the answers its handlers raise on purpose (400, 401, 404) and to its
  successes. A 500 from an uncaught exception is sent by the framework's
  server-error layer outside the CORS layer, without CORS headers. The page is
  served from another origin, so the browser rejects that fetch
  (`Pipeline.FetchResolves`).
- The backend's account lookup (`get_account_info`) is a function parameter
  returning `None` for any exception; `mimetypes.guess_extension` and the presigned
  URL generator are function parameters; `uuid4()` and `utcnow()` are values in an
  `Env` record.
- The table's serial primary key is the store's `nextId` counter; the unique
  constraint on `s3_key` is modelled: an upload whose key is already used writes the
  object and then fails at commit (`KeyConflict`, a 500); the sequence value is
  consumed either way.
- The `filename` column is `String(256)` on PostgreSQL: a name of at most 256
  characters is stored as sent, a longer one is cut to 256 characters when all it
  loses is spaces, and otherwise the insert or update fails at commit (a 500). An
  upload with such a name has already written its object; a rename with one changes
  nothing.
- Presigned URLs are signed per request (they embed the signing time), so each
  request gets its own signer; what stays fixed across requests is the stored key.
- A failure to unpack the header into two parts raises `ValueError` in the
  dependency, which the framework answers as an internal error (500), not as a 401.

Behaviour of the code worth stating up front: the reducer has no phase guards
(every action applies in every phase, so an action arriving in an unexpected phase
is applied, not ignored); the reducer state has no title field; the countdown has
no floor and does not itself start the recording; zero-length chunks are kept; the
Recorder does not use the reducer at all; and `save` checks neither the title nor
the response status.

## Model

| member | source | states |
|---|---|---|
| RecordingContext.Reducer | frontend/src/context/RecordingContext.tsx:42-65 | Every action applies in every phase; each action changes only its own fields (START_COUNTDOWN phase and count, TICK_COUNTDOWN count, START_RECORDING phase and timer, TICK_TIMER timer, STOP_RECORDING phase and blob, UPLOAD_START and UPLOAD_FAIL phase only); DISCARD and UPLOAD_SUCCESS give the initial state; an unrecognised action changes nothing |
| RecordingContext.DispatchAll | frontend/src/context/RecordingContext.tsx:68 | Dispatching a queue of actions applies them one at a time in arrival order |
| RecordingContext.CountdownTicks | frontend/src/context/RecordingContext.tsx:46-47 | n countdown ticks lower the count by exactly n and change nothing else, in any phase |
| RecordingContext.CountdownHasNoFloor | frontend/src/context/RecordingContext.tsx:44-47 | A fourth tick after START_COUNTDOWN leaves the count at -1 and the phase at COUNTDOWN |
| RecordingContext.TimerTicks | frontend/src/context/RecordingContext.tsx:50-51 | n timer ticks raise the timer by exactly n and change nothing else |
| RecordingContext.UploadFailRestoresReview | frontend/src/context/RecordingContext.tsx:56-61 | From REVIEW, UPLOAD_START then UPLOAD_FAIL gives back the identical state, blob, timer and count included |
| RecordingContext.BlobProvenance | frontend/src/context/RecordingContext.tsx:52-59 | After any run of actions the blob is the original one, absent, or one handed in by a STOP_RECORDING of that run |
| RecordingContext.OneSecond | frontend/src/context/RecordingContext.tsx:71-75 | The provider's per-second effect ticks the timer in RECORDING and does nothing in any other phase |
| RecordingContext.SecondsElapse | frontend/src/context/RecordingContext.tsx:71-75 | n seconds in RECORDING add exactly n to the timer; in other phases they change nothing |
| RecordingContext.HappyPathSession | frontend/src/context/RecordingContext.tsx:35-59 | Start, three ticks, record, five seconds, stop with b reaches REVIEW with count 0, timer 5, blob b; upload and success return to the initial state |
| Recorder.OnStartRecording | frontend/src/components/Recorder.tsx:28-42 | Without a camera stream nothing changes; with one the chunk list is emptied, the phase is RECORDING and a recorder is attached |
| Recorder.OnDataAvailable | frontend/src/components/Recorder.tsx:34-35 | A chunk is appended at the end, whatever its size; earlier chunks and all other fields are kept |
| Recorder.OnStop | frontend/src/components/Recorder.tsx:36 | The recorder's stop callback sets PREVIEW and keeps chunks and name |
| Recorder.OnStopRecording | frontend/src/components/Recorder.tsx:44 | The stop button changes no state; a stop request reaches a recorder exactly when one is attached |
| Recorder.OnDiscard | frontend/src/components/Recorder.tsx:46-50 | Discard empties the chunks and the name and returns to IDLE |
| Recorder.OnFilenameChange | frontend/src/components/Recorder.tsx:104 | Typing replaces the name and nothing else |
| Recorder.Step | frontend/src/components/Recorder.tsx:28-50 | PREVIEW is entered only through the recorder's stop callback; pressing stop changes no state |
| Recorder.UploadFileName | frontend/src/components/Recorder.tsx:59 | The file part is named after the typed name plus ".webm", or "untitled.webm" when the name is empty |
| Recorder.UploadTitle | frontend/src/components/Recorder.tsx:60 | The title field is the typed name when it is non-empty and exactly "Untitled recording" when it is empty |
| Recorder.Save | frontend/src/components/Recorder.tsx:52-71 | No chunks: nothing happens; signed out: only the "not logged in" alert, and no alert when signed in; otherwise a request with the concatenated chunks, video/webm, the name fallbacks and a Bearer header; once the fetch resolves exactly one refresh is emitted and the state is reset as by discard, whatever the status; a rejected fetch emits nothing and leaves the state as it was |
| Recorder.ChunksKeptInOrder | frontend/src/components/Recorder.tsx:34-35 | Chunks arriving one by one end up in arrival order, none dropped, nothing else changed |
| Recorder.SaveEnabledIffNonBlank | frontend/src/components/Recorder.tsx:108 | The Save button is enabled exactly when the name has a non-whitespace character |
| Recorder.EnabledSaveUsesTypedName | frontend/src/components/Recorder.tsx:59-60 | Through the enabled button the "untitled" fallbacks are never used |
| Recorder.RecordAndSave | frontend/src/components/Recorder.tsx:28-71 | Start, chunks, stop, name, save: the request body is exactly the recorded bytes, one refresh is emitted and the component is back to its freshly mounted state, except that the recorder stays attached |
| Recorder.SecondSaveSendsNothing | frontend/src/components/Recorder.tsx:53 | After a completed save a second save sends no request and emits no refresh |
| Common.BuildBlob | frontend/src/components/Recorder.tsx:57 | The blob is the chunks' bytes in order, and as long as all chunks together |
| Common.ConcatAppend | frontend/src/components/Recorder.tsx:57 | The blob of two runs of chunks is the two blobs glued together |
| Text.SplitYieldsWords | backend/auth.py:10 | Every piece of the whitespace split is non-empty and holds no whitespace |
| Text.SplitKeepsAllText | backend/auth.py:10 | The split loses exactly the whitespace: the pieces glued together are the input's other characters in order |
| Text.SplitJoinSpaced | backend/auth.py:10 | Splitting words joined by single spaces gives the words back |
| Text.SplitPiecesAreMaximal | backend/auth.py:10 | The pieces are maximal: the input is exactly its pieces interleaved with whitespace-only gaps, and consecutive pieces are separated by at least one whitespace character |
| Text.TrimNonEmptyIff | frontend/src/components/Recorder.tsx:108 | trim() leaves a non-empty string exactly when some character is not whitespace |
| Text.LowerAscii | backend/auth.py:11 | Lower-casing maps each capital letter to its small letter and keeps every other character |
| Auth.FirstLocalId | backend/auth.py:17 | The uid is present exactly when the users list exists, is non-empty and its first entry has a localId |
| Auth.GetCurrentUid | backend/auth.py:9-19 | A header that does not split into exactly two parts is an unpacking failure, not a 401; a scheme other than bearer in any case is a 401 "Bad auth header"; with a bearer scheme and a token whose lookup yields a localId the outcome is that uid, and only then is it a success; every other failure is 401 "Token invalid or expired" |
| Auth.Resolve | backend/auth.py:15-19 | Once the scheme is accepted: the uid when the lookup succeeds and yields a first localId, otherwise exactly 401 "Token invalid or expired" |
| Auth.BearerSchemeIff | backend/auth.py:11 | The scheme test accepts exactly the six-letter spellings of "bearer" in any mix of letter case and nothing else |
| Auth.SchemeTokenHeader | backend/auth.py:10-12 | For a header "scheme token", the scheme is accepted exactly when it is "bearer" in some letter case, and then the token lookup alone decides |
| Auth.BearerHeaderRoundTrip | backend/auth.py:10-19 | The header "Bearer <token>" hands exactly that token to the lookup when the token is non-empty and free of whitespace |
| Auth.EmptyTokenIsMalformed | backend/auth.py:10 | "Bearer " with an empty token fails at unpacking rather than with a 401 |
| Crud.ListVideos | backend/crud.py:19-21 | The listing holds exactly the rows whose owner is the given uid, unchanged |
| Crud.Extension | backend/crud.py:24 | A non-empty guessed extension is used as is; a missing or empty guess gives ".webm"; the result is never empty |
| Crud.ColumnValue | backend/models.py:11 | The column keeps a name that fits as is; a longer one is kept as its first `width` characters exactly when every character past the width is a space, and is otherwise rejected |
| Crud.ColumnValueIdempotent | backend/models.py:11 | A stored value fits the column, so storing it again keeps it |
| Crud.StorageKey | backend/crud.py:25 | The key is "uid/" followed by the uuid and extension, so it lies under the owner's folder |
| Crud.SaveUpload | backend/crud.py:23-40 | The object is written under the new key and the next id is consumed; a name the column rejects fails the insert; otherwise, when the key is unused, exactly one row owned by the uid with the column's value of the name and the key is added under the next id and no other row changes; in every failure no row is added |
| Crud.SaveUploadPreservesWf | backend/crud.py:23-40 | An upload keeps the store consistent (fresh ids, objects present, keys unique and under their owner) and grows it by exactly one row |
| Crud.DeleteVideo | backend/crud.py:51-54 | Deleting removes exactly that row and exactly the object under its key, and keeps the store consistent |
| Api.ListMyVideos | backend/main.py:24-38 | The caller sees exactly their own videos, with name, creation time and a URL for the stored key |
| Api.UploadVideo | backend/main.py:40-55 | A content type other than video/webm or video/mp4 is a 400 with the store untouched; an accepted upload is created exactly when the name fits its column and the storage key is unused, and otherwise is a 500 that adds no row; a created video belongs to the caller, carries the column's value of the given name and its object holds the uploaded bytes; an accepted upload, created or not, writes the bytes under the new key and leaves every other object as it was, so on a key conflict the existing row's object is overwritten before the commit fails |
| Api.RenameVideo | backend/main.py:57-75 | A missing or foreign id is a 404 with the store untouched; a name the column rejects is a 500 with the store untouched; otherwise only that row's name changes, to the column's value of what was sent, and the answer reports it |
| Api.DeleteVideoHandler | backend/main.py:77-86 | A missing or foreign id is a 404 with the store untouched; otherwise exactly that row and exactly its object go, every other row and object is kept, and the answer is 204 |
| Api.Handle | backend/main.py:24-86 | Every handler keeps the store consistent; listing changes nothing |
| Api.HandleIsolatesOwners | backend/main.py:64-66 | Whatever a caller asks, rows owned by anyone else are kept unchanged |
| Api.Serve | backend/main.py:45 | Authentication runs first: a malformed header is a 500, a rejected one a 401 carrying the dependency's detail, and neither touches the store; an authenticated request is handled exactly as its handler does for the authenticated uid |
| Api.ServeIsolatesOwners | backend/main.py:83-85 | End to end, a request touches only rows owned by the uid its header authenticates |
| Api.ForeignLooksMissing | backend/main.py:64-66 | Renaming or deleting another user's video answers exactly as for a missing one |
| Api.UploadThenList | backend/main.py:49-55 | A created video appears in the uploader's later listing with the id, name and creation time it was returned with, and both URLs sign the same stored key |
| Api.RenameThenList | backend/main.py:67-74 | After a rename the listing has the same ids, creation times and stored keys; the renamed video shows the column's value of the new name, or its old name when the rename failed; every other name is unchanged |
| Api.DeleteIsFinal | backend/main.py:83-86 | After a delete the video can be neither renamed nor deleted again and is gone from the listing |
| Pipeline.SaveRequestPassesTypeGuard | backend/main.py:47-48 | Every request the recorder sends carries a content type the upload endpoint accepts |
| Pipeline.SaveRequestCarriesToken | backend/auth.py:10-11 | The recorder's header hands the backend exactly its ID token |
| Pipeline.RecordedBytesAreStored | backend/crud.py:23-40 | A recorded take uploaded by a signed-in user is created exactly when its title fits the column and its storage key is unused (otherwise a 500 that adds no row); when created it is stored under that user, named by the column's value of the title field, with exactly the recorded bytes; the fetch resolves, and the take is cleared, exactly when the row was created |
| Pipeline.LongTitleOrphansObject | backend/crud.py:23-40 | A title with a non-space character past the 256th makes the upload a 500 that adds no row but leaves the recorded bytes in the bucket under a key no row uses (when the key was unused); the 500 carries no CORS headers, so the fetch rejects and `save` emits no refresh and keeps the take |
| Pipeline.InvalidTokenLosesTake | frontend/src/components/Recorder.tsx:52-71 | A token the identity provider rejects gets a 401 that changes nothing; the answer carries CORS headers, so the fetch resolves and `save` emits the refresh and clears the recorded chunks anyway |

## Left out

- React rendering, `useEffect`/`useState` scheduling and `setInterval` timing: ticks and callbacks are explicit events, and each handler runs atomically on the state it sees.
- The camera set-up effect (`getUserMedia`, the denial alert): the stream is a flag passed to the start handler.
- Exceptions from the `MediaRecorder` constructor, `start()` or `stop()`: not modelled, because they come from the browser.
- Recorder.Save: the fetch's outcome is an input; the browser's CORS check is not modelled beyond `Pipeline.FetchResolves`. That predicate says a 500 from an uncaught exception makes the cross-origin fetch reject, while every other answer resolves it. Network failures are rejected fetches as well.
- Recorder.Save: does not model the window between its awaits; the request is built from the state at the call. In that window the user could edit the name or further chunks could arrive. The Save button also stays enabled in PREVIEW, so a second click sends a duplicate upload. A take started in the window (Discard, then Start) is wiped by the final `discard()`.
- RecordingContext.Reducer: `countdown` and `timer` are unbounded integers; JavaScript numbers are doubles, which only differ beyond 2^53 ticks.
- Text.LowerAscii: lower-cases only ASCII capitals; Python's `str.lower()` also maps other letters, but none of them to a letter of "bearer", so the scheme comparison is decided the same way.
- FastAPI's own request validation (422 for a missing header, a missing form field or a non-integer id), and start-up table creation: framework behaviour, not the application's. The framework also rejects an empty required `filename` form field as missing, so the model's creating a row for an empty title describes a request the real endpoint answers with 422.
- The account lookup, `mimetypes`, presigned URLs, UUIDs and the clock: foreign calls, given as parameters.
- The `user_uid` (`String(128)`) and `s3_key` (`String(512)`) column widths: identity-provider uids are at most 128 characters, so keys stay far below 512; only the `filename` width is modelled.
- S3 and database failures other than the unique-key conflict and an over-long name, and the object's `ContentType` metadata: the bucket is a map from key to bytes.
- Api.UploadVideo: that existing rows survive an upload is stated for a consistent store only, because the model's id counter could otherwise collide with a row the database's sequence would never produce.
- LibraryGrid, VideoList, the login and register pages, routing and configuration: network fetches, rendering and glue.

=== FILE: api.dfy ===
/** The HTTP handlers of the video service, as operations on the abstract
    store. Each request is first authenticated by `Auth.GetCurrentUid`; the
    presigned-URL generator is a parameter. */
module Api {
  import opened Common
  import Auth
  import opened Crud

  /** The JSON body the handlers return for one video. */
  datatype VideoOut = VideoOut(id: int, filename: string, s3Url: string, createdAt: int)

  /** A multipart file part: its declared content type (possibly absent) and bytes. */
  datatype UploadFile = UploadFile(contentType: Option<string>, data: seq<Byte>)

  datatype Request =
    | ListMine
    | Upload(filename: string, file: UploadFile)
    | Rename(videoId: int, newName: string)
    | Delete(videoId: int)

  /** What the environment supplies to one request: the UUID drawn for a new
      key, the current time and the MIME-type guesser. */
  datatype Env = Env(uuid: string, now: int, guess: string -> Option<string>)

  datatype Response =
    | Listed(videos: map<int, VideoOut>)      // 200
    | Created(video: VideoOut)                // 201
    | Renamed(video: VideoOut)                // 200
    | Deleted                                 // 204
    | HttpError(status: int, detail: string)  // 400, 401, 404
    | ServerError                             // 500: an unhandled exception

  const NotFound: Response := HttpError(404, "Not Found")
  const UnsupportedType: Response := HttpError(400, "Unsupported content-type")

  /** The content types the upload endpoint accepts. */
  predicate AcceptedType(ct: Option<string>) {
    ct == Some("video/webm") || ct == Some("video/mp4")
  }

  /** True when the row `id` exists and belongs to `uid`. */
  predicate OwnedBy(st: Store, id: int, uid: string) {
    id in st.records && st.records[id].userUid == uid
  }

  function ToOut(id: int, v: Video, presign: string -> string): VideoOut {
    VideoOut(id, v.filename, presign(v.s3Key), v.createdAt)
  }

  /** `GET /videos`: the caller's videos, and only those. */
  function ListMyVideos(st: Store, uid: string, presign: string -> string): (r: map<int, VideoOut>)
    ensures forall id :: id in r <==> OwnedBy(st, id, uid)
    ensures forall id :: id in r ==>
              (id in st.records && r[id].id == id && r[id].filename == st.records[id].filename
               && r[id].createdAt == st.records[id].createdAt && r[id].s3Url == presign(st.records[id].s3Key))
  {
    var mine := ListVideos(st, uid);
    map id | id in mine :: ToOut(id, mine[id], presign)
  }

  /** `POST /videos/upload`: the content-type guard, then `save_upload`. */
  function UploadVideo(st: Store, uid: string, filename: string, file: UploadFile, env: Env,
                       presign: string -> string): (r: (Store, Response))
    ensures !AcceptedType(file.contentType) ==> r == (st, UnsupportedType)
    ensures r.1.Created? ==>
              && (Wf(st) ==> r.1.video.id !in st.records)
              && OwnedBy(r.0, r.1.video.id, uid)
              && ColumnValue(filename, FilenameWidth) == Some(r.0.records[r.1.video.id].filename)
              && r.1.video.filename == r.0.records[r.1.video.id].filename
              && r.0.records[r.1.video.id].s3Key in r.0.objects
              && r.0.objects[r.0.records[r.1.video.id].s3Key] == file.data
    ensures r.1.Created? || r.1 == UnsupportedType || r.1.ServerError?
    ensures AcceptedType(file.contentType) ==>
              (r.1.Created? <==>
                 && ColumnValue(filename, FilenameWidth).Some?
                 && KeyUnused(st, StorageKey(uid, env.uuid, Extension(file.contentType.value, env.guess))))
    ensures r.1.ServerError? ==> r.0.records == st.records
    ensures AcceptedType(file.contentType) ==>
              r.0.objects == st.objects[StorageKey(uid, env.uuid, Extension(file.contentType.value, env.guess)) := file.data]
    ensures Wf(st) ==> forall id :: id in st.records ==> id in r.0.records && r.0.records[id] == st.records[id]
    ensures Wf(st) ==> Wf(r.0)
  {
    if !AcceptedType(file.contentType) then (st, UnsupportedType)
    else
      var ct := file.contentType.value;
      SaveUploadPreservesWf(st, uid, ct, file.data, filename, env.uuid, env.now, env.guess);
      match SaveUpload(st, uid, ct, file.data, filename, env.uuid, env.now, env.guess)
      case Stored(st', id) => (st', Created(ToOut(id, st'.records[id], presign)))
      case ValueTooLong(st') => (st', ServerError)
      case KeyConflict(st') => (st', ServerError)
  }

  /** `PATCH /videos/{id}`: 404 unless the caller owns the row; otherwise
      only the file name changes, to what the `filename` column stores for
      the name sent, and a name the column rejects fails the commit (500)
      with nothing changed. */
  function RenameVideo(st: Store, uid: string, videoId: int, newName: string,
                       presign: string -> string): (r: (Store, Response))
    ensures !OwnedBy(st, videoId, uid) ==> r == (st, NotFound)
    ensures OwnedBy(st, videoId, uid) && ColumnValue(newName, FilenameWidth).None? ==> r == (st, ServerError)
    ensures OwnedBy(st, videoId, uid) && ColumnValue(newName, FilenameWidth).Some? ==>
              && r.0.records.Keys == st.records.Keys
              && r.0.records[videoId] == st.records[videoId].(filename := ColumnValue(newName, FilenameWidth).value)
              && (forall id :: id in st.records && id != videoId ==> r.0.records[id] == st.records[id])
              && r.0.objects == st.objects && r.0.nextId == st.nextId
              && r.1 == Renamed(VideoOut(videoId, ColumnValue(newName, FilenameWidth).value,
                                         presign(st.records[videoId].s3Key), st.records[videoId].createdAt))
    ensures Wf(st) ==> Wf(r.0)
  {
    if !OwnedBy(st, videoId, uid) then (st, NotFound)
    else
      match ColumnValue(newName, FilenameWidth)
      case None => (st, ServerError)
      case Some(name) =>
        var v := st.records[videoId].(filename := name);
        var st' := st.(records := st.records[videoId := v]);
        (st', Renamed(ToOut(videoId, v, presign)))
  }

  /** `DELETE /videos/{id}`: 404 unless the caller owns the row; otherwise
      the row and its object go and the answer is 204. */
  function DeleteVideoHandler(st: Store, uid: string, videoId: int): (r: (Store, Response))
    ensures !OwnedBy(st, videoId, uid) ==> r == (st, NotFound)
    ensures OwnedBy(st, videoId, uid) ==>
              && r.1 == Deleted
              && r.0.records.Keys == st.records.Keys - {videoId}
              && (forall id :: id in r.0.records ==> r.0.records[id] == st.records[id])
              && st.records[videoId].s3Key !in r.0.objects
              && r.0.objects == st.objects - {st.records[videoId].s3Key}
    ensures Wf(st) ==> Wf(r.0)
  {
    if !OwnedBy(st, videoId, uid) then (st, NotFound)
    else (DeleteVideo(st, videoId), Deleted)
  }

  /** The handler an authenticated request reaches. */
  function Handle(st: Store, uid: string, req: Request, env: Env, presign: string -> string): (r: (Store, Response))
    ensures Wf(st) ==> Wf(r.0)
    ensures req.ListMine? ==> r.0 == st && r.1.Listed?
  {
    match req
    case ListMine => (st, Listed(ListMyVideos(st, uid, presign)))
    case Upload(filename, file) => UploadVideo(st, uid, filename, file, env, presign)
    case Rename(id, name) => RenameVideo(st, uid, id, name, presign)
    case Delete(id) => DeleteVideoHandler(st, uid, id)
  }

  /** Isolation between users: whatever a caller asks, rows owned by anyone
      else are neither removed nor altered. */
  lemma HandleIsolatesOwners(st: Store, uid: string, req: Request, env: Env, presign: string -> string)
    requires Wf(st)
    ensures var st' := Handle(st, uid, req, env, presign).0;
            forall id :: id in st.records && st.records[id].userUid != uid
              ==> id in st'.records && st'.records[id] == st.records[id]
  {
  }

  /** One request end to end: authentication first, then the handler. */
  function Serve(st: Store, authorization: string, lookup: string -> Option<Auth.AccountInfo>,
                 req: Request, env: Env, presign: string -> string): (r: (Store, Response))
    ensures !Auth.GetCurrentUid(authorization, lookup).Authenticated? ==> r.0 == st
    ensures Auth.GetCurrentUid(authorization, lookup).Malformed? ==> r.1 == ServerError
    ensures Auth.GetCurrentUid(authorization, lookup).Unauthorized? ==>
              r.1 == HttpError(401, Auth.GetCurrentUid(authorization, lookup).detail)
    ensures Auth.GetCurrentUid(authorization, lookup).Authenticated? ==>
              r == Handle(st, Auth.GetCurrentUid(authorization, lookup).uid, req, env, presign)
    ensures Wf(st) ==> Wf(r.0)
  {
    match Auth.GetCurrentUid(authorization, lookup)
    case Malformed => (st, ServerError)
    case Unauthorized(detail) => (st, HttpError(401, detail))
    case Authenticated(uid) => Handle(st, uid, req, env, presign)
  }

  /** End to end, a request can only touch rows owned by the uid its header
      authenticates; a request that fails authentication touches nothing. */
  lemma ServeIsolatesOwners(st: Store, authorization: string, lookup: string -> Option<Auth.AccountInfo>,
                            req: Request, env: Env, presign: string -> string)
    requires Wf(st)
    ensures var st' := Serve(st, authorization, lookup, req, env, presign).0;
            var a := Auth.GetCurrentUid(authorization, lookup);
            forall id :: id in st.records && !(a.Authenticated? && st.records[id].userUid == a.uid)
              ==> id in st'.records && st'.records[id] == st.records[id]
  {
  }

  /** A row owned by someone else is indistinguishable from a missing one. */
  lemma ForeignLooksMissing(st: Store, uid: string, videoId: int, name: string, presign: string -> string)
    requires videoId in st.records && st.records[videoId].userUid != uid
    ensures RenameVideo(st, uid, videoId, name, presign).1
         == RenameVideo(st.(records := st.records - {videoId}), uid, videoId, name, presign).1
         == NotFound
    ensures DeleteVideoHandler(st, uid, videoId).1
         == DeleteVideoHandler(st.(records := st.records - {videoId}), uid, videoId).1
         == NotFound
  {
  }

  /** Upload then list: a created video shows up in the uploader's listing
      with the id, name and creation time it was returned with, and its URL
      signs the same stored key. Each request signs its URLs afresh
      (`presign` for the upload, `presign'` for the listing), so the URLs
      themselves may differ. */
  lemma UploadThenList(st: Store, uid: string, filename: string, file: UploadFile, env: Env,
                       presign: string -> string, presign': string -> string)
    ensures var r := UploadVideo(st, uid, filename, file, env, presign);
            r.1.Created? ==>
              && r.1.video.id in ListMyVideos(r.0, uid, presign')
              && var out := ListMyVideos(r.0, uid, presign')[r.1.video.id];
                 && out.id == r.1.video.id && out.filename == r.1.video.filename
                 && out.createdAt == r.1.video.createdAt
                 && r.1.video.s3Url == presign(r.0.records[out.id].s3Key)
                 && out.s3Url == presign'(r.0.records[out.id].s3Key)
  {
  }

  /** Rename then list: the listing keeps the same videos with the same ids,
      creation times and stored keys; only the renamed video's name changes,
      to what the column stores, or not at all when the rename failed. The
      two listings sign their URLs separately. */
  lemma RenameThenList(st: Store, uid: string, videoId: int, newName: string,
                       presign: string -> string, presign': string -> string, presign'': string -> string)
    requires OwnedBy(st, videoId, uid)
    ensures var st' := RenameVideo(st, uid, videoId, newName, presign).0;
            var l := ListMyVideos(st', uid, presign'');
            var before := ListMyVideos(st, uid, presign');
            && l.Keys == before.Keys
            && (forall id :: id in l ==>
                  && l[id].id == before[id].id && l[id].createdAt == before[id].createdAt
                  && st'.records[id].s3Key == st.records[id].s3Key
                  && l[id].s3Url == presign''(st.records[id].s3Key))
            && (forall id :: id in l && id != videoId ==> l[id].filename == before[id].filename)
            && (ColumnValue(newName, FilenameWidth).Some? ==>
                  l[videoId].filename == ColumnValue(newName, FilenameWidth).value)
            && (ColumnValue(newName, FilenameWidth).None? ==>
                  l[videoId].filename == before[videoId].filename)
  {
  }

  /** Delete is final: once deleted, the video can be neither renamed nor
      deleted again, and the owner's listing no longer shows it. */
  lemma DeleteIsFinal(st: Store, uid: string, videoId: int, name: string, presign: string -> string)
    requires OwnedBy(st, videoId, uid)
    ensures var st' := DeleteVideoHandler(st, uid, videoId).0;
            && RenameVideo(st', uid, videoId, name, presign) == (st', NotFound)
            && DeleteVideoHandler(st', uid, videoId) == (st', NotFound)
            && videoId !in ListMyVideos(st', uid, presign)
  {
  }
}

=== FILE: auth.dfy ===
/** The backend's bearer-token dependency (`get_current_uid`): the
    Authorization header is split on whitespace, its scheme checked, and the
    token resolved to a user id by the identity provider. The provider's
    account lookup is a parameter: `None` stands for any exception it raises. */
module Auth {
  import opened Common
  import opened Text

  /** One entry of the provider's `users` list; `localId` may be missing. */
  datatype UserRecord = UserRecord(localId: Option<string>)

  /** The provider's answer; the `users` key may be missing. */
  datatype AccountInfo = AccountInfo(users: Option<seq<UserRecord>>)

  /** What the dependency yields: the caller's uid, an HTTP 401 with a detail
      message, or a failure to unpack the header into two parts (a
      `ValueError` the framework reports as an internal error, not a 401). */
  datatype AuthOutcome =
    | Authenticated(uid: string)
    | Unauthorized(detail: string)
    | Malformed

  const BadAuthHeader: string := "Bad auth header"
  const TokenInvalid: string := "Token invalid or expired"

  /** The scheme test `scheme.lower() == "bearer"`. */
  predicate IsBearerScheme(scheme: string) {
    LowerAscii(scheme) == "bearer"
  }

  /** `info["users"][0]["localId"]`, or `None` where that indexing raises. */
  function FirstLocalId(info: AccountInfo): (r: Option<string>)
    ensures r.Some? <==> info.users.Some? && |info.users.value| > 0 && info.users.value[0].localId.Some?
    ensures r.Some? ==> r.value == info.users.value[0].localId.value
  {
    match info.users
    case None => None
    case Some(us) => if |us| == 0 then None else us[0].localId
  }

  /** What the dependency does with a well-formed header whose token is `token`. */
  function Resolve(token: string, lookup: string -> Option<AccountInfo>): (r: AuthOutcome)
    ensures r.Authenticated? <==> lookup(token).Some? && FirstLocalId(lookup(token).value).Some?
    ensures r.Authenticated? ==> Some(r.uid) == FirstLocalId(lookup(token).value)
    ensures !r.Authenticated? ==> r == Unauthorized(TokenInvalid)
  {
    match lookup(token)
    case None => Unauthorized(TokenInvalid)
    case Some(info) =>
      match FirstLocalId(info)
      case None => Unauthorized(TokenInvalid)
      case Some(uid) => Authenticated(uid)
  }

  /** `get_current_uid(authorization)`. */
  function GetCurrentUid(authorization: string, lookup: string -> Option<AccountInfo>): (r: AuthOutcome)
    ensures r.Malformed? <==> |Split(authorization)| != 2
    ensures r == Unauthorized(BadAuthHeader) <==>
              |Split(authorization)| == 2 && !IsBearerScheme(Split(authorization)[0])
    ensures r.Authenticated? ==>
              |Split(authorization)| == 2 && IsBearerScheme(Split(authorization)[0])
              && lookup(Split(authorization)[1]).Some?
              && FirstLocalId(lookup(Split(authorization)[1]).value) == Some(r.uid)
    ensures (|Split(authorization)| == 2 && IsBearerScheme(Split(authorization)[0])
             && lookup(Split(authorization)[1]).Some?
             && FirstLocalId(lookup(Split(authorization)[1]).value).Some?)
            ==> r == Authenticated(FirstLocalId(lookup(Split(authorization)[1]).value).value)
    ensures r.Unauthorized? ==> r.detail == BadAuthHeader || r.detail == TokenInvalid
  {
    var parts := Split(authorization);
    if |parts| != 2 then Malformed
    else
      var scheme, token := parts[0], parts[1];
      if !IsBearerScheme(scheme) then Unauthorized(BadAuthHeader)
      else Resolve(token, lookup)
  }

  /** The header the frontend sends: `Bearer <token>`. */
  function BearerHeader(token: string): string {
    "Bearer " + token
  }


  /** Any header of the form `<scheme> <token>` with non-empty, whitespace-free
      parts is accepted exactly when the scheme is "bearer" in some letter case,
      and then the outcome is decided by the token lookup alone. */
  lemma SchemeTokenHeader(scheme: string, token: string, lookup: string -> Option<AccountInfo>)
    requires IsWord(scheme) && IsWord(token)
    ensures IsBearerScheme(scheme) ==> GetCurrentUid(JoinSpaced([scheme, token]), lookup) == Resolve(token, lookup)
    ensures !IsBearerScheme(scheme) ==> GetCurrentUid(JoinSpaced([scheme, token]), lookup) == Unauthorized(BadAuthHeader)
  {
    SplitJoinSpaced([scheme, token]);
  }

  /** Round trip with the frontend: a header built from a non-empty,
      whitespace-free token hands exactly that token to the lookup. */
  lemma BearerHeaderRoundTrip(token: string, lookup: string -> Option<AccountInfo>)
    requires IsWord(token)
    ensures GetCurrentUid(BearerHeader(token), lookup) == Resolve(token, lookup)
  {
    var scheme := "Bearer";
    assert IsWord(scheme);
    assert JoinSpaced([scheme, token]) == BearerHeader(token);
    SchemeTokenHeader(scheme, token, lookup);
  }

  /** `c.lower()` equals the lower-case ASCII letter `l` exactly when `c` is
      `l` or its capital `u`. */
  lemma LowerCharIsLetter(c: char, l: char, u: char)
    requires 'a' <= l <= 'z' && u as int == l as int - 32
    ensures LowerChar(c) == l <==> c == l || c == u
  {
  }

  /** The scheme test accepts exactly the 64 spellings of "bearer" that mix
      lower- and upper-case letters, and nothing else. */
  lemma BearerSchemeIff(s: string)
    ensures IsBearerScheme(s) <==>
              |s| == 6 && forall i :: 0 <= i < 6 ==> s[i] == "bearer"[i] || s[i] == "BEARER"[i]
  {
    if |s| == 6 {
      forall i | 0 <= i < 6
        ensures LowerAscii(s)[i] == "bearer"[i] <==> s[i] == "bearer"[i] || s[i] == "BEARER"[i]
      {
        LowerCharIsLetter(s[i], "bearer"[i], "BEARER"[i]);
      }
    }
  }

  /** A header whose token is empty has one part, so unpacking fails before
      any 401 is produced. */
  lemma EmptyTokenIsMalformed(lookup: string -> Option<AccountInfo>)
    ensures GetCurrentUid(BearerHeader(""), lookup) == Malformed
  {
    assert BearerHeader("") == "Bearer" + ([' '] + []);
    SplitWordSpace("Bearer", []);
  }
}

=== FILE: common.dfy ===
/** Small value types shared by the frontend and backend models. */
module Common {

  datatype Option<+T> = None | Some(value: T)

  /** One byte of media data. */
  type Byte = bv8

  /** `new Blob(parts)`: the parts' bytes one after another, in order. */
  function Concat(parts: seq<seq<Byte>>): seq<Byte> {
    if parts == [] then [] else Concat(parts[..|parts| - 1]) + parts[|parts| - 1]
  }

  /** Sum of the parts' lengths. */
  function TotalSize(parts: seq<seq<Byte>>): nat {
    if parts == [] then 0 else TotalSize(parts[..|parts| - 1]) + |parts[|parts| - 1]|
  }

  /** Appending a part appends exactly its bytes to the blob. */
  lemma ConcatSnoc(parts: seq<seq<Byte>>, p: seq<Byte>)
    ensures Concat(parts + [p]) == Concat(parts) + p
  {
  }

  /** The blob built from two runs of parts is the two blobs glued together. */
  lemma {:induction false} ConcatAppend(a: seq<seq<Byte>>, b: seq<seq<Byte>>)
    ensures Concat(a + b) == Concat(a) + Concat(b)
    decreases |b|
  {
    if b == [] {
      assert a + b == a;
    } else {
      var b' := b[..|b| - 1];
      assert a + b == (a + b') + [b[|b| - 1]];
      ConcatSnoc(a + b', b[|b| - 1]);
      ConcatAppend(a, b');
      ConcatSnoc(b', b[|b| - 1]);
      assert b == b' + [b[|b| - 1]];
    }
  }

  /** The blob is exactly as long as its parts together. */
  lemma {:induction false} ConcatSize(parts: seq<seq<Byte>>)
    ensures |Concat(parts)| == TotalSize(parts)
    decreases |parts|
  {
    if parts != [] {
      ConcatSize(parts[..|parts| - 1]);
    }
  }

  /** Builds the blob part by part, as the browser's Blob constructor does. */
  method BuildBlob(parts: seq<seq<Byte>>) returns (blob: seq<Byte>)
    ensures blob == Concat(parts)
    ensures |blob| == TotalSize(parts)
  {
    blob := [];
    var i := 0;
    while i < |parts|
      invariant 0 <= i <= |parts|
      invariant blob == Concat(parts[..i])
    {
      assert parts[..i + 1] == parts[..i] + [parts[i]];
      ConcatSnoc(parts[..i], parts[i]);
      blob := blob + parts[i];
      i := i + 1;
    }
    assert parts[..i] == parts;
    ConcatSize(parts);
  }
}

=== FILE: crud.dfy ===
/** The backend's data layer: the `recordings` table and the S3 bucket, both
    abstracted as maps. The table's serial primary key is the store's
    `nextId` counter; the random UUID, the clock and the MIME-type guesser
    are parameters. */
module Crud {
  import opened Common

  /** One row of the `recordings` table. */
  datatype Video = Video(userUid: string, filename: string, s3Key: string, createdAt: int)

  /** Table rows by primary key, bucket objects by key, and the next value of
      the primary-key sequence. */
  datatype Store = Store(records: map<int, Video>, objects: map<string, seq<Byte>>, nextId: int)

  /** What `save_upload` ends in: the new row and its id, or the insert
      failing at commit after the object was written, either because the
      file name does not fit its column or because the unique constraint on
      `s3_key` is violated. */
  datatype SaveOutcome =
    | Stored(store: Store, id: int)
    | ValueTooLong(store: Store)
    | KeyConflict(store: Store)

  const DefaultExtension: string := ".webm"

  /** The width of the `filename` column, `String(256)`. */
  const FilenameWidth: nat := 256

  /** What PostgreSQL stores for `s` in a `VARCHAR(width)` column: `s` itself
      when it fits, `s` cut to `width` characters when everything cut off is
      spaces, and nothing (the statement fails) otherwise. */
  function ColumnValue(s: string, width: nat): (r: Option<string>)
    ensures |s| <= width ==> r == Some(s)
    ensures r.Some? <==> forall i :: width <= i < |s| ==> s[i] == ' '
    ensures r.Some? ==> |r.value| <= width && r.value == s[..|r.value|]
    ensures r.Some? ==> forall i :: |r.value| <= i < |s| ==> s[i] == ' '
    ensures r.Some? && width < |s| ==> r.value == s[..width]
  {
    if |s| <= width then Some(s)
    else if forall i :: width <= i < |s| ==> s[i] == ' ' then Some(s[..width])
    else None
  }

  /** The store's consistency: ids come from the sequence, every row's
      object exists, no two rows share a key, and every key sits under its
      owner's uid. */
  ghost predicate Wf(st: Store) {
    && (forall id :: id in st.records ==> id < st.nextId)
    && (forall id :: id in st.records ==> st.records[id].s3Key in st.objects)
    && (forall id, id' :: id in st.records && id' in st.records && id != id'
          ==> st.records[id].s3Key != st.records[id'].s3Key)
    && (forall id :: id in st.records ==> OwnedKey(st.records[id].userUid, st.records[id].s3Key))
  }

  /** A key lies under the owner's folder `uid/`. */
  predicate OwnedKey(uid: string, key: string) {
    uid + "/" <= key
  }

  /** True when no row already uses `key`. */
  predicate KeyUnused(st: Store, key: string) {
    forall id :: id in st.records ==> st.records[id].s3Key != key
  }

  /** `list_videos(uid)`: the rows whose owner is `uid`. */
  function ListVideos(st: Store, uid: string): (r: map<int, Video>)
    ensures forall id :: id in r <==> id in st.records && st.records[id].userUid == uid
    ensures forall id :: id in r ==> r[id] == st.records[id]
  {
    map id | id in st.records && st.records[id].userUid == uid :: st.records[id]
  }

  /** `mimetypes.guess_extension(content_type) or ".webm"`: an absent or
      empty guess falls back to the default. */
  function Extension(contentType: string, guess: string -> Option<string>): (ext: string)
    ensures ext != ""
    ensures guess(contentType).Some? && guess(contentType).value != "" ==> ext == guess(contentType).value
    ensures guess(contentType).None? ==> ext == DefaultExtension
    ensures guess(contentType) == Some("") ==> ext == DefaultExtension
  {
    match guess(contentType)
    case None => DefaultExtension
    case Some(e) => if e == "" then DefaultExtension else e
  }

  /** Storing a stored value again keeps it: what the column holds always
      fits the column. */
  lemma ColumnValueIdempotent(s: string, width: nat)
    requires ColumnValue(s, width).Some?
    ensures ColumnValue(ColumnValue(s, width).value, width) == ColumnValue(s, width)
  {
  }

  /** The object key `uid/<uuid><ext>`. */
  function StorageKey(uid: string, uuid: string, ext: string): (key: string)
    ensures OwnedKey(uid, key)
    ensures |key| == |uid| + 1 + |uuid| + |ext|
    ensures key[|uid| + 1..] == uuid + ext
  {
    uid + "/" + uuid + ext
  }

  /** `save_upload`: write the object, then insert the row. The insert
      draws the next id before the row's values are checked, so the sequence
      value is consumed whether or not the row is inserted. */
  function SaveUpload(st: Store, uid: string, contentType: string, data: seq<Byte>, filename: string,
                      uuid: string, now: int, guess: string -> Option<string>): (r: SaveOutcome)
    ensures var key := StorageKey(uid, uuid, Extension(contentType, guess));
            && r.store.objects == st.objects[key := data]
            && r.store.nextId == st.nextId + 1
            && (r.ValueTooLong? <==> ColumnValue(filename, FilenameWidth).None?)
            && (r.Stored? <==> ColumnValue(filename, FilenameWidth).Some? && KeyUnused(st, key))
            && (!r.Stored? ==> r.store.records == st.records)
            && (r.Stored? ==>
                  && r.id == st.nextId
                  && r.id in r.store.records
                  && r.store.records[r.id] == Video(uid, ColumnValue(filename, FilenameWidth).value, key, now)
                  && r.store.records.Keys == st.records.Keys + {r.id})
    ensures r.Stored? ==> forall id :: id in st.records && id != r.id ==> r.store.records[id] == st.records[id]
  {
    var key := StorageKey(uid, uuid, Extension(contentType, guess));
    var objects := st.objects[key := data];
    var id := st.nextId;
    match ColumnValue(filename, FilenameWidth)
    case None => ValueTooLong(Store(st.records, objects, id + 1))
    case Some(name) =>
      if KeyUnused(st, key) then
        var records := st.records[id := Video(uid, name, key, now)];
        Stored(Store(records, objects, id + 1), id)
      else
        KeyConflict(Store(st.records, objects, id + 1))
  }

  /** An upload into a consistent store keeps it consistent and, when the row
      is inserted, adds exactly one row. */
  lemma SaveUploadPreservesWf(st: Store, uid: string, contentType: string, data: seq<Byte>, filename: string,
                              uuid: string, now: int, guess: string -> Option<string>)
    ensures var r := SaveUpload(st, uid, contentType, data, filename, uuid, now, guess);
            Wf(st) ==> Wf(r.store) && (r.Stored? ==> r.id !in st.records && |r.store.records| == |st.records| + 1)
  {
    var r := SaveUpload(st, uid, contentType, data, filename, uuid, now, guess);
    var key := StorageKey(uid, uuid, Extension(contentType, guess));
    if Wf(st) && r.Stored? {
      assert st.nextId !in st.records;
      var rs := r.store.records;
      assert rs == st.records[st.nextId := Video(uid, ColumnValue(filename, FilenameWidth).value, key, now)];
      forall id | id in rs
        ensures id < r.store.nextId && rs[id].s3Key in r.store.objects
        ensures OwnedKey(rs[id].userUid, rs[id].s3Key)
      {
      }
      forall id, id' | id in rs && id' in rs && id != id'
        ensures rs[id].s3Key != rs[id'].s3Key
      {
      }
      assert rs.Keys == st.records.Keys + {st.nextId};
    }
  }

  /** `crud.delete_video`: remove the object under the row's key, then the row. */
  function DeleteVideo(st: Store, id: int): (r: Store)
    requires id in st.records
    ensures r.records.Keys == st.records.Keys - {id}
    ensures forall id' :: id' in r.records ==> r.records[id'] == st.records[id']
    ensures r.objects.Keys == st.objects.Keys - {st.records[id].s3Key}
    ensures forall k :: k in r.objects ==> r.objects[k] == st.objects[k]
    ensures r.nextId == st.nextId
    ensures Wf(st) ==> Wf(r)
  {
    var key := st.records[id].s3Key;
    Store(st.records - {id}, st.objects - {key}, st.nextId)
  }
}

=== FILE: pipeline.dfy ===
/** How the recorder's upload request meets the backend: its header
    authenticates, its content type passes the upload guard, and the bytes
    the user recorded are the bytes the store keeps. */
module Pipeline {
  import opened Common
  import Text
  import Auth
  import Crud
  import Api
  import Recorder

  /** The backend request a recorder upload turns into. */
  function AsBackendRequest(req: Recorder.UploadRequest): Api.Request {
    Api.Upload(req.title, Api.UploadFile(Some(req.contentType), req.body))
  }

  /** Every request `save` sends carries a content type the upload endpoint
      accepts. */
  lemma SaveRequestPassesTypeGuard(s: Recorder.RecorderState, session: Recorder.Session, delivered: bool)
    requires Recorder.Save(s, session, delivered).request.Some?
    ensures Api.AcceptedType(Some(Recorder.Save(s, session, delivered).request.value.contentType))
  {
  }

  /** The header `save` sends hands the backend exactly the ID token it was
      built from, provided the token is non-empty and free of whitespace. */
  lemma SaveRequestCarriesToken(s: Recorder.RecorderState, token: string, delivered: bool,
                                lookup: string -> Option<Auth.AccountInfo>)
    requires Recorder.Save(s, Recorder.SignedIn(Some(token)), delivered).request.Some?
    requires Text.IsWord(token)
    ensures var req := Recorder.Save(s, Recorder.SignedIn(Some(token)), delivered).request.value;
            Auth.GetCurrentUid(req.authorization, lookup) == Auth.Resolve(token, lookup)
  {
    assert "Bearer " + token == Auth.BearerHeader(token);
    Auth.BearerHeaderRoundTrip(token, lookup);
  }

  /** End to end: when the token resolves to `uid`, the upload is created
      exactly when the title fits the `filename` column and the object key
      `uid/<uuid><ext>` is not yet used by a row (otherwise it fails with a
      server error and no row is added); a created row belongs to `uid`, is
      named by what the column stores for the request's title field (not its
      `.webm` file name) and its object holds exactly the recorded bytes.
      The browser's fetch resolves, and `save` clears the take, exactly when
      the row was created. */
  lemma RecordedBytesAreStored(st: Crud.Store, s: Recorder.RecorderState, token: string, uid: string,
                               lookup: string -> Option<Auth.AccountInfo>, env: Api.Env,
                               presign: string -> string)
    requires Recorder.Save(s, Recorder.SignedIn(Some(token)), true).request.Some?
    requires Text.IsWord(token)
    requires Auth.Resolve(token, lookup) == Auth.Authenticated(uid)
    requires Crud.Wf(st)
    ensures var req := Recorder.Save(s, Recorder.SignedIn(Some(token)), true).request.value;
            var r := Api.Serve(st, req.authorization, lookup, AsBackendRequest(req), env, presign);
            && Crud.Wf(r.0)
            && (r.1.Created? || r.1.ServerError?)
            && (FetchResolves(r.1) <==> r.1.Created?)
            && (r.1.Created? <==>
                  && Crud.ColumnValue(req.title, Crud.FilenameWidth).Some?
                  && Crud.KeyUnused(st, Crud.StorageKey(uid, env.uuid, Crud.Extension(Recorder.MediaType, env.guess))))
            && (r.1.ServerError? ==> r.0.records == st.records)
            && (r.1.Created? ==>
                  && Api.OwnedBy(r.0, r.1.video.id, uid)
                  && Crud.ColumnValue(req.title, Crud.FilenameWidth) == Some(r.0.records[r.1.video.id].filename)
                  && r.0.records[r.1.video.id].s3Key in r.0.objects
                  && r.0.objects[r.0.records[r.1.video.id].s3Key] == Concat(s.chunks))
  {
    var req := Recorder.Save(s, Recorder.SignedIn(Some(token)), true).request.value;
    SaveRequestCarriesToken(s, token, true, lookup);
    SaveRequestPassesTypeGuard(s, Recorder.SignedIn(Some(token)), true);
    var r := Api.Serve(st, req.authorization, lookup, AsBackendRequest(req), env, presign);
    assert r == Api.UploadVideo(st, uid, req.title, Api.UploadFile(Some(req.contentType), req.body), env, presign);
  }

  /** Whether the browser's `fetch` of a cross-origin upload resolves. Answers
      the handlers raise on purpose (400, 401, 404) pass through the
      application's CORS layer and carry its headers; a 500 from an uncaught
      exception is sent by the server-error layer outside it, without CORS
      headers, so the browser rejects the fetch. */
  predicate FetchResolves(resp: Api.Response) {
    !resp.ServerError?
  }

  /** A title the `filename` column rejects: the backend writes the recorded
      bytes under the new key, then fails the insert, answering a 500 without
      CORS headers. The fetch rejects, so `save` emits no refresh and the take
      stays as it was; the object is left behind with no row pointing to it. */
  lemma LongTitleOrphansObject(st: Crud.Store, s: Recorder.RecorderState, token: string, uid: string,
                               lookup: string -> Option<Auth.AccountInfo>, env: Api.Env,
                               presign: string -> string)
    requires s.chunks != []
    requires Text.IsWord(token)
    requires Auth.Resolve(token, lookup) == Auth.Authenticated(uid)
    requires exists i :: Crud.FilenameWidth <= i < |s.filename| && s.filename[i] != ' '
    ensures var req := Recorder.Save(s, Recorder.SignedIn(Some(token)), true).request.value;
            var r := Api.Serve(st, req.authorization, lookup, AsBackendRequest(req), env, presign);
            var key := Crud.StorageKey(uid, env.uuid, Crud.Extension(Recorder.MediaType, env.guess));
            var eff := Recorder.Save(s, Recorder.SignedIn(Some(token)), FetchResolves(r.1));
            && r.1 == Api.ServerError
            && r.0.records == st.records
            && key in r.0.objects && r.0.objects[key] == Concat(s.chunks)
            && (Crud.KeyUnused(st, key) ==> Crud.KeyUnused(r.0, key))
            && eff.refreshEvents == 0 && eff.next == s && eff.alert == None
  {
    var req := Recorder.Save(s, Recorder.SignedIn(Some(token)), true).request.value;
    assert s.filename != "";
    assert req.title == s.filename;
    SaveRequestCarriesToken(s, token, true, lookup);
    SaveRequestPassesTypeGuard(s, Recorder.SignedIn(Some(token)), true);
    assert Crud.ColumnValue(req.title, Crud.FilenameWidth).None?;
  }

  /** A token the identity provider rejects loses the take: the backend
      answers 401 "Token invalid or expired" and changes nothing, the answer
      carries CORS headers so the fetch resolves, and `save`, which never
      reads the status, emits the refresh and clears the recorded chunks. */
  lemma InvalidTokenLosesTake(st: Crud.Store, s: Recorder.RecorderState, token: string,
                              lookup: string -> Option<Auth.AccountInfo>, env: Api.Env,
                              presign: string -> string)
    requires s.chunks != []
    requires Text.IsWord(token)
    requires !Auth.Resolve(token, lookup).Authenticated?
    ensures var req := Recorder.Save(s, Recorder.SignedIn(Some(token)), true).request.value;
            var r := Api.Serve(st, req.authorization, lookup, AsBackendRequest(req), env, presign);
            var eff := Recorder.Save(s, Recorder.SignedIn(Some(token)), FetchResolves(r.1));
            && r == (st, Api.HttpError(401, Auth.TokenInvalid))
            && eff.refreshEvents == 1 && eff.next.chunks == [] && eff.next.phase == Recorder.Idle
  {
    SaveRequestCarriesToken(s, token, true, lookup);
  }
}

=== FILE: recorder.dfy ===
/** The Recorder component: a three-phase machine (IDLE, RECORDING, PREVIEW)
    over the list of recorded chunks and the file name typed by the user. It
    is independent of the recording-context reducer. Browser media objects
    are abstracted: the camera stream is a flag handed to the start handler,
    each chunk is its bytes, and the upload is described by the request it
    sends. */
module Recorder {
  import opened Common
  import Text

  type Chunk = seq<Byte>

  datatype Phase = Idle | Recording | Preview

  /** The component's state; `recorderAttached` says whether a media recorder
      has been created, so that the stop button reaches it. */
  datatype RecorderState = RecorderState(chunks: seq<Chunk>, phase: Phase, filename: string,
                                         recorderAttached: bool)

  /** The state the component starts in. */
  const Mounted: RecorderState := RecorderState([], Idle, "", false)

  const MediaType: string := "video/webm"
  const NotLoggedIn: string := "You\U{2019}re not logged in."

  /** `startRecording`: a no-op without a camera stream; otherwise a new
      recorder, an emptied chunk list and the RECORDING phase. */
  function OnStartRecording(s: RecorderState, streamAttached: bool): (r: RecorderState)
    ensures !streamAttached ==> r == s
    ensures streamAttached ==>
              r.chunks == [] && r.phase == Recording && r.recorderAttached && r.filename == s.filename
  {
    if !streamAttached then s
    else s.(chunks := [], phase := Recording, recorderAttached := true)
  }

  /** `ondataavailable`: the chunk goes at the end, whatever its size. */
  function OnDataAvailable(s: RecorderState, chunk: Chunk): (r: RecorderState)
    ensures |r.chunks| == |s.chunks| + 1 && r.chunks[|s.chunks|] == chunk
    ensures r.chunks[..|s.chunks|] == s.chunks
    ensures r.phase == s.phase && r.filename == s.filename && r.recorderAttached == s.recorderAttached
  {
    s.(chunks := s.chunks + [chunk])
  }

  /** `onstop`, the recorder's own callback: the only way into PREVIEW. */
  function OnStop(s: RecorderState): (r: RecorderState)
    ensures r.phase == Preview
    ensures r.chunks == s.chunks && r.filename == s.filename && r.recorderAttached == s.recorderAttached
  {
    s.(phase := Preview)
  }

  /** `stopRecording`: asks the recorder (if any) to stop and changes no state;
      the answer says whether a stop request reached a recorder. */
  function OnStopRecording(s: RecorderState): (r: (RecorderState, bool))
    ensures r.0 == s
    ensures r.1 <==> s.recorderAttached
  {
    (s, s.recorderAttached)
  }

  /** `discard`: no chunks, no name, back to IDLE; the recorder reference stays. */
  function OnDiscard(s: RecorderState): (r: RecorderState)
    ensures r.chunks == [] && r.filename == "" && r.phase == Idle
    ensures r.recorderAttached == s.recorderAttached
  {
    s.(chunks := [], filename := "", phase := Idle)
  }

  /** The title input's change handler. */
  function OnFilenameChange(s: RecorderState, name: string): (r: RecorderState)
    ensures r.filename == name
    ensures r.chunks == s.chunks && r.phase == s.phase && r.recorderAttached == s.recorderAttached
  {
    s.(filename := name)
  }

  /** The Save button is enabled when the trimmed name is non-empty. */
  predicate SaveEnabled(s: RecorderState) {
    Text.Trim(s.filename) != ""
  }

  /** The multipart file name: the typed name, or "untitled", plus ".webm". */
  function UploadFileName(filename: string): (r: string)
    ensures filename != "" ==> r == filename + ".webm"
    ensures filename == "" ==> r == "untitled.webm"
  {
    (if filename == "" then "untitled" else filename) + ".webm"
  }

  /** The `filename` form field: the typed name, or "Untitled recording". */
  function UploadTitle(filename: string): (r: string)
    ensures r != ""
    ensures filename != "" ==> r == filename
    ensures filename == "" ==> r == "Untitled recording"
  {
    if filename == "" then "Untitled recording" else filename
  }

  /** The upload request `save` sends. */
  datatype UploadRequest = UploadRequest(fileName: string, title: string, contentType: string,
                                         body: seq<Byte>, authorization: string)

  /** The signed-in user, if any; `idToken` is `None` when fetching the ID
      token fails. */
  datatype Session = SignedOut | SignedIn(idToken: Option<string>)

  /** What one call of `save` does: the next state, the request it sent, how
      many refresh events it emitted and the alert it showed. */
  datatype SaveEffect = SaveEffect(next: RecorderState, request: Option<UploadRequest>,
                                   refreshEvents: nat, alert: Option<string>)

  /** `save`. `delivered` says whether the network call completed; the HTTP
      status of the answer is never looked at, so it is not an input. */
  function Save(s: RecorderState, session: Session, delivered: bool): (r: SaveEffect)
    ensures s.chunks == [] ==> r == SaveEffect(s, None, 0, None)
    ensures s.chunks != [] && session.SignedOut? ==> r == SaveEffect(s, None, 0, Some(NotLoggedIn))
    ensures r.request.Some? <==> s.chunks != [] && session.SignedIn? && session.idToken.Some?
    ensures s.chunks != [] && session.SignedIn? ==> r.alert == None
    ensures r.request.Some? ==>
              && r.request.value.body == Concat(s.chunks)
              && r.request.value.fileName == UploadFileName(s.filename)
              && r.request.value.title == UploadTitle(s.filename)
              && r.request.value.contentType == MediaType
              && r.request.value.authorization == "Bearer " + session.idToken.value
    ensures r.refreshEvents == 1 <==> r.request.Some? && delivered
    ensures r.refreshEvents <= 1
    ensures r.refreshEvents == 1 ==> r.next == OnDiscard(s)
    ensures r.refreshEvents == 0 ==> r.next == s
  {
    if s.chunks == [] then SaveEffect(s, None, 0, None)
    else match session
      case SignedOut => SaveEffect(s, None, 0, Some(NotLoggedIn))
      case SignedIn(None) => SaveEffect(s, None, 0, None)
      case SignedIn(Some(token)) =>
        var req := UploadRequest(UploadFileName(s.filename), UploadTitle(s.filename), MediaType,
                                 Concat(s.chunks), "Bearer " + token);
        if delivered then SaveEffect(OnDiscard(s), Some(req), 1, None)
        else SaveEffect(s, Some(req), 0, None)
  }

  /** The component's events other than `save`. */
  datatype Event =
    | StartRecording(streamAttached: bool)
    | DataAvailable(chunk: Chunk)
    | RecorderStop
    | StopRecording
    | Discard
    | SetFilename(name: string)

  function Step(s: RecorderState, e: Event): (r: RecorderState)
    ensures r.phase == Preview && s.phase != Preview ==> e.RecorderStop?
    ensures e.StopRecording? ==> r == s
  {
    match e
    case StartRecording(attached) => OnStartRecording(s, attached)
    case DataAvailable(c) => OnDataAvailable(s, c)
    case RecorderStop => OnStop(s)
    case StopRecording => OnStopRecording(s).0
    case Discard => OnDiscard(s)
    case SetFilename(name) => OnFilenameChange(s, name)
  }

  function Run(s: RecorderState, es: seq<Event>): RecorderState
    decreases |es|
  {
    if es == [] then s else Run(Step(s, es[0]), es[1..])
  }

  /** One data event per chunk, in order. */
  function DataEvents(cs: seq<Chunk>): (es: seq<Event>)
    ensures |es| == |cs|
    ensures forall i :: 0 <= i < |cs| ==> es[i] == DataAvailable(cs[i])
  {
    if cs == [] then [] else [DataAvailable(cs[0])] + DataEvents(cs[1..])
  }

  /** Chunks arriving one by one are kept in arrival order, none dropped (an
      empty chunk included), and nothing else changes. */
  lemma {:induction false} ChunksKeptInOrder(s: RecorderState, cs: seq<Chunk>)
    ensures Run(s, DataEvents(cs)) == s.(chunks := s.chunks + cs)
    decreases |cs|
  {
    if cs == [] {
      assert s.chunks + cs == s.chunks;
    } else {
      var es := DataEvents(cs);
      assert es[1..] == DataEvents(cs[1..]);
      ChunksKeptInOrder(OnDataAvailable(s, cs[0]), cs[1..]);
      assert s.chunks + [cs[0]] + cs[1..] == s.chunks + cs;
    }
  }

  /** The Save button's condition holds exactly when the name has a
      non-whitespace character. */
  lemma SaveEnabledIffNonBlank(s: RecorderState)
    ensures SaveEnabled(s) <==> exists i :: 0 <= i < |s.filename| && !Text.IsJsSpace(s.filename[i])
  {
    Text.TrimNonEmptyIff(s.filename);
  }

  /** Through the enabled button the fallbacks are never used: the file is
      named after the typed name and the title is the typed name. */
  lemma EnabledSaveUsesTypedName(s: RecorderState)
    requires SaveEnabled(s)
    ensures UploadFileName(s.filename) == s.filename + ".webm"
    ensures UploadTitle(s.filename) == s.filename
  {
  }

  /** A whole take: start with a stream, receive `cs`, stop, name it and save
      while signed in. The request carries exactly the recorded bytes, one
      refresh is emitted, and the component is back to an empty IDLE state. */
  lemma RecordAndSave(s: RecorderState, cs: seq<Chunk>, name: string, token: string)
    requires cs != []
    ensures var s1 := Run(s, [StartRecording(true)] + DataEvents(cs) + [RecorderStop, SetFilename(name)]);
            var eff := Save(s1, SignedIn(Some(token)), true);
            && s1.phase == Preview && s1.chunks == cs
            && eff.request.Some? && eff.request.value.body == Concat(cs)
            && eff.request.value.title == UploadTitle(name)
            && eff.refreshEvents == 1
            && eff.next == Mounted.(recorderAttached := true)
  {
    var s0 := OnStartRecording(s, true);
    var es := [StartRecording(true)] + DataEvents(cs) + [RecorderStop, SetFilename(name)];
    RunAppend(s, [StartRecording(true)], DataEvents(cs) + [RecorderStop, SetFilename(name)]);
    assert es == [StartRecording(true)] + (DataEvents(cs) + [RecorderStop, SetFilename(name)]);
    assert Run(s, [StartRecording(true)]) == s0;
    RunAppend(s0, DataEvents(cs), [RecorderStop, SetFilename(name)]);
    ChunksKeptInOrder(s0, cs);
    assert s0.chunks + cs == cs;
    var s2 := s0.(chunks := cs);
    var tail: seq<Event> := [RecorderStop, SetFilename(name)];
    assert tail[1..] == [SetFilename(name)] && [SetFilename(name)][1..] == [];
    var s1 := OnFilenameChange(OnStop(s2), name);
    assert Run(s2, tail) == Run(OnStop(s2), [SetFilename(name)]);
    assert Run(OnStop(s2), [SetFilename(name)]) == Run(s1, []);
    assert s1.chunks == cs && s1.phase == Preview;
  }

  lemma {:induction false} RunAppend(s: RecorderState, xs: seq<Event>, ys: seq<Event>)
    ensures Run(s, xs + ys) == Run(Run(s, xs), ys)
    decreases |xs|
  {
    if xs == [] {
      assert xs + ys == ys;
    } else {
      assert (xs + ys)[0] == xs[0];
      assert (xs + ys)[1..] == xs[1..] + ys;
      RunAppend(Step(s, xs[0]), xs[1..], ys);
    }
  }

  /** After a completed save there is nothing left to send: a second save
      sends no request and emits no refresh. */
  lemma SecondSaveSendsNothing(s: RecorderState, session: Session, session': Session, delivered': bool)
    requires Save(s, session, true).refreshEvents == 1
    ensures var again := Save(Save(s, session, true).next, session', delivered');
            again.request.None? && again.refreshEvents == 0
  {
  }
}

=== FILE: recording_context.dfy ===
/** The recording-session reducer of the frontend's recording context: a pure
    `reducer(state, action)` over five phases, a countdown, an elapsed-time
    counter and an optional recorded blob. The reducer has no phase guards:
    every action applies in every phase. */
module RecordingContext {
  import opened Common

  /** The recorded media, as its bytes. */
  type Blob = seq<Byte>

  datatype Phase = Ready | Countdown | Recording | Review | Uploading

  datatype State = State(phase: Phase, countdown: int, timer: int, blob: Option<Blob>)

  /** The nine action types, plus any other `type` tag a caller might
      dispatch (the union type is erased at run time). */
  datatype Action =
    | StartCountdown
    | TickCountdown
    | StartRecording
    | StopRecording(recorded: Blob)
    | Discard
    | UploadStart
    | UploadSuccess
    | UploadFail
    | TickTimer
    | Unrecognised(tag: string)

  const CountdownStart: int := 3

  /** The state the provider starts in and the two reset actions return to. */
  const Initial: State := State(Ready, CountdownStart, 0, None)

  /** The four fields of a state. */
  datatype Field = PhaseField | CountdownField | TimerField | BlobField

  /** `s` and `t` agree on field `f`. */
  predicate Same(s: State, t: State, f: Field) {
    match f
    case PhaseField => s.phase == t.phase
    case CountdownField => s.countdown == t.countdown
    case TimerField => s.timer == t.timer
    case BlobField => s.blob == t.blob
  }

  /** The fields each action may change; all others are left as they were. */
  function Writes(a: Action): set<Field> {
    match a
    case StartCountdown => {PhaseField, CountdownField}
    case TickCountdown => {CountdownField}
    case StartRecording => {PhaseField, TimerField}
    case TickTimer => {TimerField}
    case StopRecording(_) => {PhaseField, BlobField}
    case Discard => {PhaseField, CountdownField, TimerField, BlobField}
    case UploadSuccess => {PhaseField, CountdownField, TimerField, BlobField}
    case UploadStart => {PhaseField}
    case UploadFail => {PhaseField}
    case Unrecognised(_) => {}
  }

  /** `reducer(state, action)`. It is total: no action is refused in any phase. */
  function Reducer(s: State, a: Action): (r: State)
    ensures forall f :: f !in Writes(a) ==> Same(s, r, f)
    ensures a.StartCountdown? ==> r.phase == Countdown && r.countdown == CountdownStart
    ensures a.TickCountdown? ==> r.countdown == s.countdown - 1
    ensures a.StartRecording? ==> r.phase == Recording && r.timer == 0
    ensures a.TickTimer? ==> r.timer == s.timer + 1
    ensures a.StopRecording? ==> r.phase == Review && r.blob == Some(a.recorded)
    ensures a.Discard? || a.UploadSuccess? ==> r == Initial
    ensures a.UploadStart? ==> r.phase == Uploading
    ensures a.UploadFail? ==> r.phase == Review
  {
    match a
    case StartCountdown => s.(phase := Countdown, countdown := CountdownStart)
    case TickCountdown => s.(countdown := s.countdown - 1)
    case StartRecording => s.(phase := Recording, timer := 0)
    case TickTimer => s.(timer := s.timer + 1)
    case StopRecording(b) => s.(phase := Review, blob := Some(b))
    case Discard => Initial
    case UploadStart => s.(phase := Uploading)
    case UploadSuccess => Initial
    case UploadFail => s.(phase := Review)
    case Unrecognised(_) => s
  }

  /** The state after dispatching `acts` in order, starting from `s`. */
  function Replay(s: State, acts: seq<Action>): State
    decreases |acts|
  {
    if acts == [] then s else Reducer(Replay(s, acts[..|acts| - 1]), acts[|acts| - 1])
  }

  /** `n` copies of one action. */
  function Repeat(a: Action, n: nat): (r: seq<Action>)
    ensures |r| == n
    ensures forall i :: 0 <= i < n ==> r[i] == a
  {
    if n == 0 then [] else Repeat(a, n - 1) + [a]
  }

  /** Dispatching two runs is dispatching the first, then the second. */
  lemma {:induction false} ReplayAppend(s: State, xs: seq<Action>, ys: seq<Action>)
    ensures Replay(s, xs + ys) == Replay(Replay(s, xs), ys)
    decreases |ys|
  {
    if ys == [] {
      assert xs + ys == xs;
    } else {
      var ys' := ys[..|ys| - 1];
      assert (xs + ys)[..|xs + ys| - 1] == xs + ys';
      ReplayAppend(s, xs, ys');
    }
  }

  /** The dispatch loop: actions are applied one at a time, in arrival order. */
  method DispatchAll(s: State, acts: seq<Action>) returns (r: State)
    ensures r == Replay(s, acts)
  {
    r := s;
    var i := 0;
    while i < |acts|
      invariant 0 <= i <= |acts|
      invariant r == Replay(s, acts[..i])
    {
      assert acts[..i + 1][..i] == acts[..i];
      r := Reducer(r, acts[i]);
      i := i + 1;
    }
    assert acts[..i] == acts;
  }

  /** `n` countdown ticks lower the count by exactly `n` and change nothing
      else. There is no floor: the count passes zero and goes negative. */
  lemma {:induction false} CountdownTicks(s: State, n: nat)
    ensures Replay(s, Repeat(TickCountdown, n)) == s.(countdown := s.countdown - n)
    decreases n
  {
    if n > 0 {
      assert Repeat(TickCountdown, n)[..n - 1] == Repeat(TickCountdown, n - 1);
      CountdownTicks(s, n - 1);
    }
  }

  /** `n` timer ticks raise the timer by exactly `n` and change nothing else. */
  lemma {:induction false} TimerTicks(s: State, n: nat)
    ensures Replay(s, Repeat(TickTimer, n)) == s.(timer := s.timer + n)
    decreases n
  {
    if n > 0 {
      assert Repeat(TickTimer, n)[..n - 1] == Repeat(TickTimer, n - 1);
      TimerTicks(s, n - 1);
    }
  }

  /** A fourth countdown tick after a start leaves the count at -1, in the
      COUNTDOWN phase. */
  lemma CountdownHasNoFloor(s: State)
    ensures var t := Replay(Reducer(s, StartCountdown), Repeat(TickCountdown, 4));
            t.countdown == -1 && t.phase == Countdown
  {
    CountdownTicks(Reducer(s, StartCountdown), 4);
  }

  /** Retrying after a failed upload: UPLOAD_START then UPLOAD_FAIL from
      REVIEW gives back the very same state, blob included. */
  lemma UploadFailRestoresReview(s: State)
    requires s.phase == Review
    ensures Reducer(Reducer(s, UploadStart), UploadFail) == s
  {
  }

  /** Where the blob can come from: after any run it is the one the run
      started with, nothing (after a reset), or one handed in by a
      STOP_RECORDING of that run. */
  lemma {:induction false} BlobProvenance(s: State, acts: seq<Action>)
    ensures var b := Replay(s, acts).blob;
            b == s.blob || b == None
            || exists i :: 0 <= i < |acts| && acts[i] == StopRecording(b.value)
    decreases |acts|
  {
    if acts != [] {
      var init := acts[..|acts| - 1];
      var last := acts[|acts| - 1];
      BlobProvenance(s, init);
      var b0 := Replay(s, init).blob;
      var b := Replay(s, acts).blob;
      if last.StopRecording? {
        assert acts[|acts| - 1] == StopRecording(b.value);
      } else if !(last.Discard? || last.UploadSuccess?) {
        assert Same(Replay(s, init), Replay(s, acts), BlobField);
        if b0 != s.blob && b0 != None {
          var i :| 0 <= i < |init| && init[i] == StopRecording(b0.value);
          assert acts[i] == init[i];
        }
      }
    }
  }

  /** The provider's once-a-second effect: it dispatches TICK_TIMER only
      while the phase is RECORDING, and nothing otherwise. */
  function OneSecond(s: State): (r: State)
    ensures s.phase == Recording ==> r == Reducer(s, TickTimer)
    ensures s.phase != Recording ==> r == s
  {
    if s.phase == Recording then Reducer(s, TickTimer) else s
  }

  function Seconds(s: State, n: nat): State
    decreases n
  {
    if n == 0 then s else OneSecond(Seconds(s, n - 1))
  }

  /** While nothing else is dispatched, `n` seconds in RECORDING add exactly
      `n` to the timer, and in any other phase change nothing at all. */
  lemma {:induction false} SecondsElapse(s: State, n: nat)
    ensures s.phase == Recording ==> Seconds(s, n) == s.(timer := s.timer + n)
    ensures s.phase != Recording ==> Seconds(s, n) == s
    decreases n
  {
    if n > 0 {
      SecondsElapse(s, n - 1);
    }
  }

  /** One full session: start, three countdown ticks, start recording, five
      seconds, stop with `b`, upload, success. The review state holds `b`,
      the count at 0 and the timer at 5; success returns to the initial state. */
  lemma HappyPathSession(b: Blob)
    ensures var review := Replay(Initial, [StartCountdown] + Repeat(TickCountdown, 3)
                                          + [StartRecording] + Repeat(TickTimer, 5) + [StopRecording(b)]);
            && review == State(Review, 0, 5, Some(b))
            && Replay(review, [UploadStart, UploadSuccess]) == Initial
  {
    var s1 := Reducer(Initial, StartCountdown);
    assert Replay(Initial, [StartCountdown]) == s1;
    ReplayAppend(Initial, [StartCountdown], Repeat(TickCountdown, 3));
    CountdownTicks(s1, 3);
    var s2 := s1.(countdown := 0);
    var run2 := [StartCountdown] + Repeat(TickCountdown, 3);
    ReplayAppend(Initial, run2, [StartRecording]);
    assert Replay(s2, [StartRecording]) == Reducer(s2, StartRecording);
    var s3 := Reducer(s2, StartRecording);
    var run3 := run2 + [StartRecording];
    ReplayAppend(Initial, run3, Repeat(TickTimer, 5));
    TimerTicks(s3, 5);
    var s4 := s3.(timer := 5);
    var run4 := run3 + Repeat(TickTimer, 5);
    ReplayAppend(Initial, run4, [StopRecording(b)]);
    assert Replay(s4, [StopRecording(b)]) == Reducer(s4, StopRecording(b));
    var review := Reducer(s4, StopRecording(b));
    assert review == State(Review, 0, 5, Some(b));
    assert [UploadStart, UploadSuccess][..1] == [UploadStart];
  }
}

=== FILE: text.dfy ===
/** String helpers shared by the backend's header parsing (Python `str.split()`,
    `str.lower()`) and the recorder's Save button (JavaScript `String.prototype.trim`).
    Characters are Unicode scalar values; no normalisation is modelled. */
module Text {

  /** Python's `str.isspace()` set, which is what `str.split()` with no
      separator splits on. */
  predicate IsPySpace(c: char) {
    var n := c as int;
    (0x09 <= n <= 0x0D) || (0x1C <= n <= 0x20) || n == 0x85 || n == 0xA0
    || n == 0x1680 || (0x2000 <= n <= 0x200A) || n == 0x2028 || n == 0x2029
    || n == 0x202F || n == 0x205F || n == 0x3000
  }

  /** ECMAScript WhiteSpace plus LineTerminator, the set `trim()` removes. */
  predicate IsJsSpace(c: char) {
    var n := c as int;
    (0x09 <= n <= 0x0D) || n == 0x20 || n == 0xA0 || n == 0xFEFF
    || n == 0x1680 || (0x2000 <= n <= 0x200A) || n == 0x2028 || n == 0x2029
    || n == 0x202F || n == 0x205F || n == 0x3000
  }

  /** True when `s` holds no Python whitespace. */
  predicate NoPySpace(s: string) {
    forall i :: 0 <= i < |s| ==> !IsPySpace(s[i])
  }

  /** A non-empty run of non-whitespace characters: what `split()` yields. */
  predicate IsWord(w: string) {
    w != [] && NoPySpace(w)
  }

  // ---------------------------------------------------------------------
  // Python str.split() with no separator
  // ---------------------------------------------------------------------

  /** The longest prefix of `s` holding no whitespace. */
  function Word(s: string): (w: string)
    ensures |w| <= |s| && w == s[..|w|]
    ensures NoPySpace(w)
    ensures |w| < |s| ==> IsPySpace(s[|w|])
    ensures s != [] && !IsPySpace(s[0]) ==> |w| >= 1
  {
    if s == [] || IsPySpace(s[0]) then [] else [s[0]] + Word(s[1..])
  }

  /** `s.split()`: the maximal whitespace-free runs of `s`, left to right. */
  function Split(s: string): (r: seq<string>)
    decreases |s|
  {
    if s == [] then []
    else if IsPySpace(s[0]) then Split(s[1..])
    else
      var w := Word(s);
      [w] + Split(s[|w|..])
  }

  /** Every piece `split()` yields is non-empty and free of whitespace. */
  lemma {:induction false} SplitYieldsWords(s: string)
    ensures forall k :: 0 <= k < |Split(s)| ==> IsWord(Split(s)[k])
    decreases |s|
  {
    if s == [] {
    } else if IsPySpace(s[0]) {
      SplitYieldsWords(s[1..]);
    } else {
      var w := Word(s);
      SplitYieldsWords(s[|w|..]);
      var ws := Split(s);
      assert ws == [w] + Split(s[|w|..]);
      forall k | 0 <= k < |ws|
        ensures IsWord(ws[k])
      {
        if k > 0 {
          assert ws[k] == Split(s[|w|..])[k - 1];
        }
      }
    }
  }

  /** The words of `ws` separated by single spaces (the inverse of `Split`). */
  function JoinSpaced(ws: seq<string>): string {
    if |ws| == 0 then []
    else if |ws| == 1 then ws[0]
    else ws[0] + (" " + JoinSpaced(ws[1..]))
  }

  /** All characters of `s` that are not whitespace, in order. */
  function RemoveSpace(s: string): (r: string)
    ensures NoPySpace(r)
    ensures |r| <= |s|
  {
    if s == [] then []
    else if IsPySpace(s[0]) then RemoveSpace(s[1..])
    else [s[0]] + RemoveSpace(s[1..])
  }

  function Flatten(ws: seq<string>): string {
    if ws == [] then [] else ws[0] + Flatten(ws[1..])
  }

  lemma {:induction false} WordOfSeparated(w: string, t: string)
    requires NoPySpace(w)
    requires t == [] || IsPySpace(t[0])
    ensures Word(w + t) == w
    decreases |w|
  {
    if w == [] {
      assert w + t == t;
    } else {
      assert (w + t)[0] == w[0];
      assert (w + t)[1..] == w[1..] + t;
      WordOfSeparated(w[1..], t);
    }
  }

  lemma {:induction false} RemoveSpaceAppend(a: string, b: string)
    ensures RemoveSpace(a + b) == RemoveSpace(a) + RemoveSpace(b)
    decreases |a|
  {
    if a == [] {
      assert a + b == b;
    } else {
      assert (a + b)[0] == a[0];
      assert (a + b)[1..] == a[1..] + b;
      RemoveSpaceAppend(a[1..], b);
    }
  }

  lemma {:induction false} RemoveSpaceOfSpaces(s: string)
    requires forall i :: 0 <= i < |s| ==> IsPySpace(s[i])
    ensures RemoveSpace(s) == []
    decreases |s|
  {
    if s != [] {
      RemoveSpaceOfSpaces(s[1..]);
    }
  }

  lemma {:induction false} RemoveSpaceOfWord(s: string)
    requires NoPySpace(s)
    ensures RemoveSpace(s) == s
    decreases |s|
  {
    if s != [] {
      RemoveSpaceOfWord(s[1..]);
      assert s == [s[0]] + s[1..];
    }
  }

  lemma {:induction false} RemoveSpaceWordFirst(t: string)
    ensures RemoveSpace(t) == Word(t) + RemoveSpace(t[|Word(t)|..])
    decreases |t|
  {
    if t == [] || IsPySpace(t[0]) {
      assert Word(t) == [];
      assert t[|Word(t)|..] == t;
    } else {
      var u := t[1..];
      RemoveSpaceWordFirst(u);
      assert Word(t) == [t[0]] + Word(u);
      assert t[|Word(t)|..] == u[|Word(u)|..];
      assert RemoveSpace(t) == [t[0]] + RemoveSpace(u);
    }
  }

  lemma FlattenCons(w: string, ws: seq<string>)
    ensures Flatten([w] + ws) == w + Flatten(ws)
  {
  }

  /** Splitting loses exactly the whitespace: gluing the words back together
      gives the non-whitespace characters of the input, in order. */
  lemma {:induction false} SplitKeepsAllText(s: string)
    ensures Flatten(Split(s)) == RemoveSpace(s)
    decreases |s|
  {
    if s == [] {
    } else if IsPySpace(s[0]) {
      SplitKeepsAllText(s[1..]);
    } else {
      var w := Word(s);
      var rest := s[|w|..];
      RemoveSpaceWordFirst(s);
      SplitKeepsAllText(rest);
      FlattenCons(w, Split(rest));
    }
  }

  lemma SplitLeadingSpace(c: char, s: string)
    requires IsPySpace(c)
    ensures Split([c] + s) == Split(s)
  {
  }

  /** A single word splits to itself. */
  lemma SplitWord(w: string)
    requires IsWord(w)
    ensures Split(w) == [w]
  {
    WordOfSeparated(w, []);
    assert w + [] == w;
    assert w[|w|..] == [];
  }

  /** A word followed by a space splits off that word first. */
  lemma SplitWordSpace(w: string, rest: string)
    requires IsWord(w)
    ensures Split(w + ([' '] + rest)) == [w] + Split(rest)
  {
    var s := w + ([' '] + rest);
    assert s[0] == w[0];
    WordOfSeparated(w, [' '] + rest);
    assert s[|w|..] == [' '] + rest;
    SplitLeadingSpace(' ', rest);
  }

  /** Round trip: joining non-empty, whitespace-free words with single spaces
      and splitting the result gives the words back. */
  lemma {:induction false} SplitJoinSpaced(ws: seq<string>)
    requires forall k :: 0 <= k < |ws| ==> IsWord(ws[k])
    ensures Split(JoinSpaced(ws)) == ws
    decreases |ws|
  {
    if |ws| == 1 {
      SplitWord(ws[0]);
    } else if |ws| > 1 {
      var tail := ws[1..];
      assert forall k :: 0 <= k < |tail| ==> tail[k] == ws[k + 1];
      assert JoinSpaced(ws) == ws[0] + ([' '] + JoinSpaced(tail));
      SplitWordSpace(ws[0], JoinSpaced(tail));
      SplitJoinSpaced(tail);
      assert ws == [ws[0]] + ws[1..];
    }
  }

  /** True when every character of `s` is whitespace. */
  predicate AllPySpace(s: string) {
    forall i :: 0 <= i < |s| ==> IsPySpace(s[i])
  }

  /** The whitespace runs around the pieces of `Split(s)`: the run before the
      first piece, the runs between pieces, and the run after the last. */
  function Gaps(s: string): (gs: seq<string>)
    ensures |gs| >= 1
    decreases |s|
  {
    if s == [] then [[]]
    else if IsPySpace(s[0]) then
      var g := Gaps(s[1..]);
      [[s[0]] + g[0]] + g[1..]
    else
      var w := Word(s);
      [[]] + Gaps(s[|w|..])
  }

  /** Interleaves gaps and words: `gs[0] + ws[0] + gs[1] + ... + ws[n-1] + gs[n]`. */
  function Weave(gs: seq<string>, ws: seq<string>): string
    requires |gs| == |ws| + 1
    decreases |ws|
  {
    if ws == [] then gs[0] else gs[0] + (ws[0] + Weave(gs[1..], ws[1..]))
  }

  lemma {:induction false} GapsCount(s: string)
    ensures |Gaps(s)| == |Split(s)| + 1
    decreases |s|
  {
    if s == [] {
    } else if IsPySpace(s[0]) {
      GapsCount(s[1..]);
    } else {
      GapsCount(s[|Word(s)|..]);
    }
  }

  lemma {:induction false} GapsAreSpace(s: string)
    ensures forall k :: 0 <= k < |Gaps(s)| ==> AllPySpace(Gaps(s)[k])
    decreases |s|
  {
    if s == [] {
    } else if IsPySpace(s[0]) {
      GapsAreSpace(s[1..]);
      var g, gs := Gaps(s[1..]), Gaps(s);
      forall k | 0 <= k < |gs|
        ensures AllPySpace(gs[k])
      {
        if k > 0 {
          assert gs[k] == g[k];
        } else {
          assert AllPySpace(g[0]);
        }
      }
    } else {
      var rest := s[|Word(s)|..];
      GapsAreSpace(rest);
      var g, gs := Gaps(rest), Gaps(s);
      forall k | 0 <= k < |gs|
        ensures AllPySpace(gs[k])
      {
        if k > 0 {
          assert gs[k] == g[k - 1];
        }
      }
    }
  }

  /** A text starting with whitespace has a non-empty leading gap. */
  lemma LeadingGap(s: string)
    requires s != [] && IsPySpace(s[0])
    ensures Gaps(s)[0] != []
  {
  }

  lemma {:induction false} GapsBetweenNonEmpty(s: string)
    ensures |Gaps(s)| == |Split(s)| + 1
    ensures forall k :: 0 < k < |Split(s)| ==> Gaps(s)[k] != []
    decreases |s|
  {
    GapsCount(s);
    if s == [] {
    } else if IsPySpace(s[0]) {
      GapsBetweenNonEmpty(s[1..]);
      var g, gs, ws := Gaps(s[1..]), Gaps(s), Split(s);
      forall k | 0 < k < |ws|
        ensures gs[k] != []
      {
        assert gs[k] == g[k];
      }
    } else {
      var w := Word(s);
      var rest := s[|w|..];
      GapsBetweenNonEmpty(rest);
      var g, gs, ws := Gaps(rest), Gaps(s), Split(s);
      forall k | 0 < k < |ws|
        ensures gs[k] != []
      {
        assert gs[k] == g[k - 1];
        if k == 1 {
          LeadingGap(rest);
        } else {
          assert ws[k] == Split(rest)[k - 1];
        }
      }
    }
  }

  lemma ConsAppend(c: char, x: string, y: string)
    ensures ([c] + x) + y == [c] + (x + y)
  {
  }

  /** Prepending a character to the first gap prepends it to the woven text. */
  lemma WeaveConsGap(c: char, g: seq<string>, ws: seq<string>)
    requires |g| == |ws| + 1
    ensures Weave([[c] + g[0]] + g[1..], ws) == [c] + Weave(g, ws)
  {
    var gs := [[c] + g[0]] + g[1..];
    if ws != [] {
      assert gs[1..] == g[1..];
      var tail := ws[0] + Weave(g[1..], ws[1..]);
      assert Weave(gs, ws) == ([c] + g[0]) + tail;
      ConsAppend(c, g[0], tail);
    }
  }

  /** A word in front of an empty first gap comes first in the woven text. */
  lemma WeaveConsWord(w: string, g: seq<string>, ws: seq<string>)
    requires |g| == |ws| + 1
    ensures Weave([[]] + g, [w] + ws) == w + Weave(g, ws)
  {
    var gs, ws' := [[]] + g, [w] + ws;
    assert gs[1..] == g && ws'[1..] == ws;
    assert Weave(gs, ws') == [] + (w + Weave(g, ws));
  }

  lemma {:induction false} WeaveGapsSplit(s: string)
    ensures |Gaps(s)| == |Split(s)| + 1
    ensures Weave(Gaps(s), Split(s)) == s
    decreases |s|
  {
    GapsCount(s);
    if s == [] {
    } else if IsPySpace(s[0]) {
      var t := s[1..];
      WeaveGapsSplit(t);
      WeaveConsGap(s[0], Gaps(t), Split(t));
      assert s == [s[0]] + t;
    } else {
      var w := Word(s);
      var rest := s[|w|..];
      WeaveGapsSplit(rest);
      WeaveConsWord(w, Gaps(rest), Split(rest));
      assert s == w + rest;
    }
  }

  /** The pieces of `split()` are maximal: `s` is exactly its pieces woven with
      whitespace-only gaps, and consecutive pieces are separated by at least
      one whitespace character. */
  lemma {:induction false} SplitPiecesAreMaximal(s: string)
    ensures |Gaps(s)| == |Split(s)| + 1
    ensures Weave(Gaps(s), Split(s)) == s
    ensures forall k :: 0 <= k < |Gaps(s)| ==> AllPySpace(Gaps(s)[k])
    ensures forall k :: 0 < k < |Split(s)| ==> Gaps(s)[k] != []
  {
    WeaveGapsSplit(s);
    GapsAreSpace(s);
    GapsBetweenNonEmpty(s);
  }

  // ---------------------------------------------------------------------
  // JavaScript String.prototype.trim
  // ---------------------------------------------------------------------

  function TrimStart(s: string): (r: string)
    ensures |r| <= |s| && r == s[|s| - |r|..]
    ensures forall i :: 0 <= i < |s| - |r| ==> IsJsSpace(s[i])
    ensures r == [] || !IsJsSpace(r[0])
  {
    if s == [] || !IsJsSpace(s[0]) then s else TrimStart(s[1..])
  }

  function TrimEnd(s: string): (r: string)
    ensures |r| <= |s| && r == s[..|r|]
    ensures forall i :: |r| <= i < |s| ==> IsJsSpace(s[i])
    ensures r == [] || !IsJsSpace(r[|r| - 1])
  {
    if s == [] || !IsJsSpace(s[|s| - 1]) then s else TrimEnd(s[..|s| - 1])
  }

  /** `s.trim()`: drops whitespace at both ends and keeps the middle intact. */
  function Trim(s: string): (r: string)
    ensures |r| <= |s|
    ensures r == [] || (!IsJsSpace(r[0]) && !IsJsSpace(r[|r| - 1]))
  {
    TrimEnd(TrimStart(s))
  }

  /** `trim()` leaves something exactly when some character is not whitespace. */
  lemma TrimNonEmptyIff(s: string)
    ensures Trim(s) != [] <==> exists i :: 0 <= i < |s| && !IsJsSpace(s[i])
  {
  }

  // ---------------------------------------------------------------------
  // Python str.lower, as far as it matters for comparing with ASCII text
  // ---------------------------------------------------------------------

  function LowerChar(c: char): (r: char)
    ensures 'A' <= c <= 'Z' ==> r as int == c as int + 32
    ensures !('A' <= c <= 'Z') ==> r == c
  {
    if 'A' <= c <= 'Z' then (c as int + 32) as char else c
  }

  /** Lower-cases the ASCII capitals of `s`, leaving every other character. */
  function LowerAscii(s: string): (r: string)
    ensures |r| == |s|
    ensures forall i :: 0 <= i < |s| ==> r[i] == LowerChar(s[i])
  {
    seq(|s|, i requires 0 <= i < |s| => LowerChar(s[i]))
  }
}
